=== FILE: README.md ===
# Room registry of the FunFriday game server, in Dafny

The game server keeps its rooms in memory in one map, `rooms`. A key is a
six-character room code. A value is a room record: the game type, the host,
the ordered list of players (`{id, name, socketId}`) and the status (`waiting`
or `active`). Six socket handlers read and change this map:

- `getRoomState`
- `createRoom`
- `joinRoom`
- `leaveRoom`
- `startGame`
- `disconnect`

Each handler emits events to the calling socket, to the rest of the room, or to
the whole room. A helper, `generateRoomCode`, draws the room codes.

Handlers run one at a time and to completion. So each one is modelled as a pure
function from the registry it finds to a `Step`: the registry it leaves plus the
events it emits, in order. An event is a pair of a target and a payload. The
target is `ToSender`, `ToOthers(code)` (`socket.to(code)`) or `ToRoom(code)`
(`io.to(code)`).

Modules:

- `RoomTypes` (room_types.dfy): players, rooms, the registry, targets, events and
  list predicates.
- `RoomCode` (room_code.dfy): `generateRoomCode`, as a loop and as a reference
  definition. It proves that every code has length 6 over `A-Z0-9`, and that
  every such code can be drawn.
- `Handlers` (handlers.dfy): the six handlers as written. Each contract gives the
  error paths, the "nothing else changes" frame, and the events emitted.
- `Invariants` (invariants.dfy): the registry invariant, which every handler
  preserves. Room identity and status only move forward, except when `createRoom` draws a code that is already taken (see "## Findings"). Also proved here: the
  properties of rejoin, of last-player cleanup and of disconnect.
- `Server` (server.dfy): one dispatcher over all commands. From the server's
  empty map, any run of requests keeps the invariant. A worked lobby session is
  included.
- `Fixes` (fixes.dfy): the two behaviours listed under "## Findings". Each comes
  with a lemma showing the problem as written and a corrected handler with the
  intended property proved.

The handlers in `Handlers` model server.js as written; three points may be unexpected:

- `createRoom` does not check for a code collision.
- A rejoin does not refresh the stored socket id.
- `completed` is never stored, so `Status` has only `Waiting` and `Active`.

## Model

| member | source | states |
|---|---|---|
| RoomCode.CharIndex | server.js:168 | `Math.floor(r * 36)` for a draw r in [0, 1) is an alphabet position in [0, 36) |
| RoomCode.AlphabetIsCodeChars | server.js:165 | the 36-character alphabet holds exactly the upper-case letters A-Z and the digits 0-9 |
| RoomCode.CodeFor | server.js:164-171 | the code drawn from six random values has length 6 and only characters in A-Z0-9 |
| RoomCode.GenerateRoomCode | server.js:164-171 | the append loop returns a code of length exactly 6 over A-Z0-9 whose i-th character is the one the i-th draw selects, equal to the reference `CodeFor` that `CreateRoom` uses |
| RoomCode.EveryCodeReachable | server.js:164-171 | every six-character code over A-Z0-9 is produced by some draws, so the whole 36^6 space can be generated |
| Handlers.RemoveById | server.js:98 | the filter keeps exactly the players whose id differs; it is empty iff every player had the id; it is the identity when no player has the id; it never grows the list |
| Handlers.KeptPositions | server.js:98 | the positions the filter keeps: strictly increasing, each holding a player without the id, and every such position included |
| Handlers.RemoveByIdAppend | server.js:98 | filtering a concatenation is the concatenation of the filtered parts |
| Handlers.RemoveByIdInOrder | server.js:98 | the filter's result is the players at the kept positions, in order, each once: order and multiplicity are those of the input |
| Handlers.RemoveByIdKeepsUniqueIds | server.js:98 | filtering a player list whose ids are distinct leaves them distinct |
| Handlers.RemoveByIdIsSplice | server.js:98 | when ids are distinct, the filter removes exactly the leaver's entry and keeps the others in order |
| Handlers.IndexOfSocket | server.js:131-133 | `findIndex` returns -1 iff no player is on the socket; otherwise it returns the first player on it |
| Handlers.DisconnectPlayers | server.js:131-136 | a player departs iff some player is on the closed socket; the one that departs is the first such player, and the rest is the list with just that entry spliced out, in order |
| Handlers.DepartureFacts | server.js:131-136 | a departure leaves one player fewer, the same multiset of players less the one gone, and distinct ids still distinct |
| Handlers.GetRoomState | server.js:28-36 | the registry is never changed; one event goes to the sender only; it is `roomState` with the stored room, or `error` "Room not found" exactly when the code is absent |
| Handlers.CreateRoom | server.js:39-55 | the room stored under the generated code is waiting, with the caller as host and sole player; any room already under that code is replaced; every other key is unchanged; `roomCreated` goes to the sender only |
| Handlers.JoinRoom | server.js:58-92 | unknown code: "Room not found" to the sender, registry unchanged. 10 or more players: "Room is full", registry unchanged, even for a member. Rejoin: only `roomState` to the sender, registry and socket id unchanged. New id: appended at the end with the earlier order kept, at most 10 players, ids still distinct, `playerJoined` to the others, then `roomState` to the sender |
| Handlers.LeaveRoom | server.js:95-110 | the room it keeps holds the filter's result, so exactly the other players stay, in join order; deletes the room exactly when all of its players had that id; other rooms are unchanged; `playerLeft {id, name}` goes to the others even when the room or the player is absent |
| Handlers.LeaveRoomKeepsJoinOrder | server.js:95-105 | with distinct ids, when the player at position k leaves a room of two or more, the room stays and its players are the others in join order |
| Handlers.StartGame | server.js:113-123 | a present room becomes active with nothing else changed; an absent room stays absent; `gameStarted` with status active goes to the whole room in both cases |
| Handlers.DisconnectRoom | server.js:131-148 | one callback of the scan: the room loses at most the first player on the socket, is deleted if left empty, and a `playerLeft` for that player goes to the room; no other key changes |
| Handlers.DisconnectRooms | server.js:130-149 | the scan over the listed rooms: each room ends as its own callback would leave it, whatever the earlier callbacks did; unlisted rooms are unchanged; no more events than listed rooms |
| Handlers.NoticesContent | server.js:138-141 | an event is among the disconnect notices iff it is the `playerLeft` of some listed room that lost a player |
| Handlers.NoticesDistinct | server.js:130-149 | no two disconnect notices go to the same room |
| Handlers.DisconnectRoomsEmits | server.js:130-149 | the events of the scan are exactly the notices computed room by room from the registry as it was before the disconnect |
| Handlers.Disconnect | server.js:126-150 | every room is handled independently: at most the first player on the socket is removed, emptied rooms are deleted, rooms with no such player are unchanged; one `playerLeft {id, name}` per removed player, to that room, in map order |
| Invariants.CreateRoomPreserves | server.js:40-52 | the invariant survives a create; when the code was free, every stored room keeps its code, game, host and creation time, and an active room stays active |
| Invariants.JoinRoomPreserves | server.js:58-92 | the invariant survives a join: at most 10 players, distinct ids, no empty room; every room keeps its code, game, host and creation time, and an active room stays active |
| Invariants.LeaveRoomPreserves | server.js:95-105 | the invariant survives a leave: a room that becomes empty is deleted |
| Invariants.StartGamePreserves | server.js:113-117 | the invariant survives a start; status moves only from waiting to active |
| Invariants.DisconnectPreserves | server.js:130-149 | the invariant survives a disconnect; every surviving room keeps its code, game, host, creation time and status |
| Invariants.StartGameIdempotent | server.js:113-117 | starting a game twice leaves the registry as starting it once |
| Invariants.JoinTwiceIsJoinOnce | server.js:72-83 | a second join with the same user id changes nothing and emits no `playerJoined` |
| Invariants.LastLeaveDeletesRoom | server.js:96-104 | after the last player leaves, `getRoomState` for the code answers "Room not found" |
| Invariants.LastDisconnectDeletesRoom | server.js:134-147 | after the last player's socket closes, `getRoomState` for the code answers "Room not found" |
| Invariants.DisconnectOfStrangerIsSilent | server.js:130-134 | closing a socket on which no player joined changes nothing and emits nothing |
| Invariants.NoNotices | server.js:134 | rooms with no player on the socket produce no events |
| Invariants.SameDisconnectedRegistry | server.js:130-149 | two registries that each hold, for every room, what the disconnect callback leaves of it are equal |
| Invariants.DisconnectOrderIrrelevant | server.js:130 | the order in which the map is iterated changes neither the resulting registry nor the set of events |
| Server.MapOrder | server.js:130 | some duplicate-free listing of the map's keys exists, standing in for its iteration order |
| Server.HandlePreserves | server.js:28-150 | every command keeps the invariant; every command except a colliding create keeps each room's identity and forward-only status |
| Server.RunPreserves | server.js:24-150 | any sequence of commands keeps the invariant |
| Server.ReachableRegistriesAreSound | server.js:13 | every registry reachable from the empty map `Initial` has distinct ids, 1 to 10 players per room, and codes of the right shape |
| Server.LobbySession | server.js:39-108 | create, join, start, disconnect and leave emit the expected events in turn, and the last leave deletes the room |
| Fixes.CreateRoomOverwritesOnCollision | server.js:40-52 | a create whose code is taken does not add a room; it drops every earlier player except the creator, and tells only the creator |
| Fixes.CollisionLosesActiveRoom | server.js:40-52 | concrete case: an active two-player room becomes a waiting one-player room of a stranger, breaking forward-only status |
| Fixes.CreateRoomFresh | server.js:40-53 | the corrected create never changes a stored room. It succeeds iff some attempt draws a free code; the room is then stored under the code of an attempt whose earlier attempts all drew taken codes, so the first free one, and under no other new key; otherwise an error goes to the sender |
| Fixes.CreateRoomFreshPreserves | server.js:40-53 | the corrected create keeps the invariant and the forward-only evolution of every room stored before and after (code, game, host and creation time kept, an active room stays active); the map never shrinks |
| Fixes.StaleRejoinSurvivesDisconnect | server.js:72-78 | as written, after a rejoin over a new socket, closing that socket leaves the user listed |
| Fixes.RefreshSocket | server.js:72-78 | the corrected rejoin keeps ids, names and order, and points the user's entry at the new socket |
| Fixes.JoinRoomRefreshing | server.js:58-92 | the corrected join points the rejoining user's entry at the new socket and leaves every other entry, the room's other fields and the other rooms as they were; on every other path it behaves as written |
| Fixes.RefreshedRejoinFollowsSocket | server.js:72-78 | after a corrected rejoin, closing the new socket removes exactly that user |
| Fixes.JoinRoomRefreshingPreserves | server.js:58-92 | the corrected join keeps the invariant and each room's identity and forward-only status (code, game, host and creation time kept, an active room stays active) |

## Left out

- HTTP and Next.js bootstrap, CORS options and `listen` error handling (server.js:1-22, 153-161): process I/O.
- `socket.join` and `socket.leave`: socket.io broadcast-group membership. Event delivery is also left out. Events are recorded as (target, payload) pairs; who receives a `ToOthers` or `ToRoom` event depends on group membership, which is not modelled.
- `Math.random` is a parameter: six reals in [0, 1) per code. `new Date()` is an opaque `Timestamp` (an integer) parameter.
- `console.log` calls.
- Iteration order of the JS `Map` in `disconnect`: it is a parameter `order`, a duplicate-free listing of the keys. The resulting registry and the set of events are proved not to depend on it. The dispatcher `Server.Handle` picks one such order by choice, so it is a ghost function.
- Missing or malformed payload fields (for example an undefined `roomCode`): every field is a string here.
- `roomData` is emitted as a JS object reference, and later handlers mutate it in place. Here an event carries a snapshot of the room as emitted.
- Authentication, the React components, the client socket wrapper and the type declarations are not part of this model.

## Findings

| source | as written | input that shows it | evidently intended | confidence | as-written member | corrected member |
|---|---|---|---|---|---|---|
| server.js:40-52 | the room is stored with `rooms.set` under the generated code without checking whether the code is taken | the map holds an active room "AAAAAA" with players U1 and U2; U3 creates a room and all six draws are 0.0 | draw again until the code is free, so a live room is never replaced | medium (collision odds are 36^-6 per create and per stored room); not executed | Fixes.CollisionLosesActiveRoom | Fixes.CreateRoomFresh |
| server.js:72-78 | a rejoin returns before updating the stored `socketId` | U1 is in a room on socket s1 and rejoins over socket s2; then s2 closes | the rejoin points U1's entry at s2, so closing s2 removes U1 | high; not executed | Fixes.StaleRejoinSurvivesDisconnect | Fixes.JoinRoomRefreshing |

=== FILE: fixes.dfy ===
/**
 * Two handlers as written lose track of players, and the corrected versions
 * here do not:
 *  - `createRoom` stores the new room without looking for a room already under
 *    the generated code, so a collision silently replaces a live room;
 *  - a rejoin leaves the stored socket id as it was, so when the socket that
 *    rejoined closes, the disconnect handler does not find the player.
 * Each finding has a lemma about the handler as written that exhibits the
 * problem, and a corrected handler with the intended property proved.
 */
module Fixes {
  import opened RoomTypes
  import opened RoomCode
  import opened Handlers
  import opened Invariants

  /** The error a corrected `createRoom` reports when every generated code is taken. */
  const CodeUnavailable: string := "Room code unavailable"

  // ---------------------------------------------------------------------------
  // Code collisions in createRoom
  // ---------------------------------------------------------------------------

  /**
   * As written, a create whose code is taken replaces the stored room: the
   * room count does not grow, every earlier player but the creator is gone
   * from it, and none of them is told.
   */
  lemma CreateRoomOverwritesOnCollision(reg: Registry, draws: seq<real>, gameType: string,
                                        userId: string, userName: string, sid: string, now: Timestamp)
    requires ValidDraws(draws) && CodeFor(draws) in reg
    ensures var code := CodeFor(draws);
      var s := CreateRoom(reg, draws, gameType, userId, userName, sid, now);
      && |s.registry| == |reg|
      && (forall p :: p in reg[code].players && p.id != userId ==> p !in s.registry[code].players)
      && ToSenderOnly(s.emits)
  {
    var code := CodeFor(draws);
    var s := CreateRoom(reg, draws, gameType, userId, userName, sid, now);
    assert s.registry.Keys == reg.Keys;
  }

  /** A concrete collision: an active room of two players becomes a waiting room of one stranger. */
  lemma CollisionLosesActiveRoom()
    ensures var draws := [0.0, 0.0, 0.0, 0.0, 0.0, 0.0];
      var ann := Player("U1", "Ann", "s1");
      var bob := Player("U2", "Bob", "s2");
      var live := Room("AAAAAA", "trivia", Identity("U1", "Ann"), [ann, bob], Active, 0);
      var reg := map["AAAAAA" := live];
      var after := CreateRoom(reg, draws, "poll", "U3", "Cy", "s3", 1).registry;
      && Inv(reg)
      && ValidDraws(draws) && CodeFor(draws) == "AAAAAA"
      && after["AAAAAA"].players == [Player("U3", "Cy", "s3")]
      && after["AAAAAA"].status == Waiting
      && !RoomsEvolve(reg, after)
  {
    var draws := [0.0, 0.0, 0.0, 0.0, 0.0, 0.0];
    assert ValidDraws(draws);
    assert CharIndex(0.0) == 0;
    assert CodeFor(draws) == "AAAAAA";
    var ann := Player("U1", "Ann", "s1");
    var bob := Player("U2", "Bob", "s2");
    assert UniqueIds([ann, bob]);
    var live := Room("AAAAAA", "trivia", Identity("U1", "Ann"), [ann, bob], Active, 0);
    assert IsRoomCode("AAAAAA");
    assert RoomOk("AAAAAA", live);
  }

  /**
   * `createRoom` with the collision check: try the draw sets in turn and store
   * the room under the first code not yet taken; report an error to the caller
   * when every code is taken.
   */
  function CreateRoomFresh(reg: Registry, attempts: seq<seq<real>>, gameType: string, userId: string,
                           userName: string, sid: string, now: Timestamp): (s: Step)
    requires forall i :: 0 <= i < |attempts| ==> ValidDraws(attempts[i])
    ensures forall c :: c in reg ==> c in s.registry && s.registry[c] == reg[c]
    ensures |s.emits| == 1 && ToSenderOnly(s.emits)
    ensures s.emits[0].event.RoomCreated? <==>
      exists i :: 0 <= i < |attempts| && CodeFor(attempts[i]) !in reg
    ensures s.emits[0].event.RoomCreated? ==>
      var room := s.emits[0].event.room;
      && room.roomCode !in reg
      && IsRoomCode(room.roomCode)
      && s.registry == reg[room.roomCode := room]
      && room == NewRoom(room.roomCode, gameType, userId, userName, sid, now)
    ensures s.emits[0].event.RoomCreated? ==>
      exists i :: 0 <= i < |attempts| && s.emits[0].event.room.roomCode == CodeFor(attempts[i]) &&
        forall j :: 0 <= j < i ==> CodeFor(attempts[j]) in reg
    ensures !s.emits[0].event.RoomCreated? ==>
      s == Step(reg, [Emit(ToSender, Error(CodeUnavailable))])
    decreases |attempts|
  {
    if attempts == [] then Step(reg, [Emit(ToSender, Error(CodeUnavailable))])
    else if CodeFor(attempts[0]) in reg then
      var s := CreateRoomFresh(reg, attempts[1..], gameType, userId, userName, sid, now);
      assert forall i :: 1 <= i < |attempts| ==> attempts[1..][i - 1] == attempts[i];
      assert s.emits[0].event.RoomCreated? ==> CodeFor(attempts[0]) in reg;
      s
    else
      CreateRoom(reg, attempts[0], gameType, userId, userName, sid, now)
  }

  /** The corrected create keeps the invariant and never disturbs a stored room. */
  lemma CreateRoomFreshPreserves(reg: Registry, attempts: seq<seq<real>>, gameType: string,
                                 userId: string, userName: string, sid: string, now: Timestamp)
    requires Inv(reg)
    requires forall i :: 0 <= i < |attempts| ==> ValidDraws(attempts[i])
    ensures var after := CreateRoomFresh(reg, attempts, gameType, userId, userName, sid, now).registry;
      Inv(after) && RoomsEvolve(reg, after) && |after| >= |reg|
  {
    var s := CreateRoomFresh(reg, attempts, gameType, userId, userName, sid, now);
    assert reg.Keys <= s.registry.Keys;
    if s.emits[0].event.RoomCreated? {
      var room := s.emits[0].event.room;
      assert RoomOk(room.roomCode, room);
    }
  }

  // ---------------------------------------------------------------------------
  // Stale socket ids after a rejoin
  // ---------------------------------------------------------------------------

  /**
   * As written, a user who rejoins over a new socket keeps the old socket id,
   * so when the new socket closes the disconnect handler leaves the user listed.
   */
  lemma StaleRejoinSurvivesDisconnect(reg: Registry, code: string, userId: string, userName: string,
                                      sid: string)
    requires code in reg && |reg[code].players| < Capacity
    requires HasId(reg[code].players, userId) && !HasSocket(reg[code].players, sid)
    ensures var after := JoinRoom(reg, code, userId, userName, sid).registry;
      && code in after
      && HasId(after[code].players, userId)
      && DisconnectPlayers(after[code].players, sid).Stayed?
  {
  }

  /** The players with `userId`'s entry now on socket `sid`, all else kept. */
  function RefreshSocket(ps: seq<Player>, userId: string, sid: string): (r: seq<Player>)
    ensures |r| == |ps|
    ensures forall i :: 0 <= i < |ps| ==>
      && r[i].id == ps[i].id
      && r[i].name == ps[i].name
      && (ps[i].id == userId ==> r[i].socketId == sid)
      && (ps[i].id != userId ==> r[i] == ps[i])
  {
    if ps == [] then []
    else
      var head := if ps[0].id == userId then ps[0].(socketId := sid) else ps[0];
      [head] + RefreshSocket(ps[1..], userId, sid)
  }

  /** `joinRoom` with the rejoin refreshing the stored socket id; every other path is as written. */
  function JoinRoomRefreshing(reg: Registry, code: string, userId: string, userName: string,
                              sid: string): (s: Step)
    ensures !(code in reg && |reg[code].players| < Capacity && HasId(reg[code].players, userId)) ==>
      s == JoinRoom(reg, code, userId, userName, sid)
    ensures code in reg && |reg[code].players| < Capacity && HasId(reg[code].players, userId) ==>
      && code in s.registry
      && SameExcept(reg, s.registry, code)
      && s.registry[code] == reg[code].(players := s.registry[code].players)
      && |s.registry[code].players| == |reg[code].players|
      && (forall i :: 0 <= i < |reg[code].players| ==>
            s.registry[code].players[i].id == reg[code].players[i].id)
      && (forall i :: 0 <= i < |reg[code].players| && reg[code].players[i].id == userId ==>
            s.registry[code].players[i].socketId == sid)
      && (forall i :: 0 <= i < |reg[code].players| && reg[code].players[i].id != userId ==>
            s.registry[code].players[i] == reg[code].players[i])
      && s.emits == [Emit(ToSender, RoomState(s.registry[code]))]
  {
    if code in reg && |reg[code].players| < Capacity && HasId(reg[code].players, userId) then
      var room := reg[code];
      var room' := room.(players := RefreshSocket(room.players, userId, sid));
      Step(reg[code := room'], [Emit(ToSender, RoomState(room'))])
    else
      JoinRoom(reg, code, userId, userName, sid)
  }

  /**
   * After a corrected rejoin over socket `sid`, closing `sid` removes exactly
   * the rejoined user from the room.
   */
  lemma RefreshedRejoinFollowsSocket(reg: Registry, code: string, userId: string, userName: string,
                                     sid: string)
    requires code in reg && |reg[code].players| < Capacity
    requires HasId(reg[code].players, userId) && !HasSocket(reg[code].players, sid)
    ensures var after := JoinRoomRefreshing(reg, code, userId, userName, sid).registry;
      && code in after
      && DisconnectPlayers(after[code].players, sid).Departed?
      && DisconnectPlayers(after[code].players, sid).player.id == userId
  {
    var after := JoinRoomRefreshing(reg, code, userId, userName, sid).registry;
    var ps := reg[code].players;
    var ps' := after[code].players;
    var k :| 0 <= k < |ps| && ps[k].id == userId;
    assert ps'[k].socketId == sid;
    var d := DisconnectPlayers(ps', sid);
    var j :| 0 <= j < |ps'| && ps'[j] == d.player && d.player.socketId == sid;
    assert ps[j].socketId != sid;
  }

  /** The corrected join keeps the invariant and each room's identity and status. */
  lemma JoinRoomRefreshingPreserves(reg: Registry, code: string, userId: string, userName: string,
                                    sid: string)
    requires Inv(reg)
    ensures Inv(JoinRoomRefreshing(reg, code, userId, userName, sid).registry)
    ensures RoomsEvolve(reg, JoinRoomRefreshing(reg, code, userId, userName, sid).registry)
  {
    JoinRoomPreserves(reg, code, userId, userName, sid);
  }
}

=== FILE: handlers.dfy ===
/**
 * The socket handlers of the game server, each a pure transition from the
 * registry it finds to the registry it leaves and the events it emits. The
 * handlers run to completion one at a time, so a transition sees no other
 * handler's partial work.
 */
module Handlers {
  import opened RoomTypes
  import opened RoomCode

  // ---------------------------------------------------------------------------
  // Player lists
  // ---------------------------------------------------------------------------

  /** `players.filter(p => p.id !== id)`. */
  function RemoveById(ps: seq<Player>, id: string): (r: seq<Player>)
    ensures forall p :: p in r <==> p in ps && p.id != id
    ensures r == [] <==> forall p :: p in ps ==> p.id == id
    ensures !HasId(ps, id) ==> r == ps
    ensures |r| <= |ps|
  {
    if ps == [] then []
    else
      var rest := RemoveById(ps[1..], id);
      assert ps == [ps[0]] + ps[1..];
      assert !HasId(ps, id) ==> !HasId(ps[1..], id) by {
        if !HasId(ps, id) {
          forall i | 0 <= i < |ps[1..]|
            ensures ps[1..][i].id != id
          {
            assert ps[1..][i] == ps[i + 1];
          }
        }
      }
      if ps[0].id == id then rest else [ps[0]] + rest
  }

  /** The tail of a list with distinct ids has distinct ids, none of them the head's. */
  lemma TailFacts(ps: seq<Player>)
    requires UniqueIds(ps) && |ps| > 0
    ensures UniqueIds(ps[1..]) && !HasId(ps[1..], ps[0].id)
  {
    var tail := ps[1..];
    forall i | 0 <= i < |tail|
      ensures tail[i].id != ps[0].id
    {
      assert tail[i] == ps[i + 1];
    }
    forall i, j | 0 <= i < j < |tail|
      ensures tail[i].id != tail[j].id
    {
      assert tail[i] == ps[i + 1] && tail[j] == ps[j + 1];
    }
  }

  /** Filtering a list with distinct ids keeps them distinct. */
  lemma {:induction false} RemoveByIdKeepsUniqueIds(ps: seq<Player>, id: string)
    requires UniqueIds(ps)
    ensures UniqueIds(RemoveById(ps, id))
  {
    if ps != [] {
      TailFacts(ps);
      RemoveByIdKeepsUniqueIds(ps[1..], id);
      if ps[0].id != id {
        var rest := RemoveById(ps[1..], id);
        NoIdInSublist(rest, ps[1..], ps[0].id);
        ConsKeepsUniqueIds(ps[0], rest);
      }
    }
  }

  /** The positions of `ps` whose player does not have `id`, in increasing order. */
  function KeptPositions(ps: seq<Player>, id: string): (ix: seq<int>)
    ensures forall i :: 0 <= i < |ix| ==> 0 <= ix[i] < |ps| && ps[ix[i]].id != id
    ensures forall i, j :: 0 <= i < j < |ix| ==> ix[i] < ix[j]
    ensures forall k :: 0 <= k < |ps| && ps[k].id != id ==> k in ix
  {
    if ps == [] then []
    else
      var front := KeptPositions(ps[..|ps| - 1], id);
      if ps[|ps| - 1].id == id then front else front + [|ps| - 1]
  }

  /** The filter distributes over concatenation. */
  lemma {:induction false} RemoveByIdAppend(a: seq<Player>, b: seq<Player>, id: string)
    ensures RemoveById(a + b, id) == RemoveById(a, id) + RemoveById(b, id)
  {
    if a == [] {
      assert a + b == b;
    } else {
      assert (a + b)[0] == a[0];
      assert (a + b)[1..] == a[1..] + b;
      RemoveByIdAppend(a[1..], b, id);
    }
  }

  /**
   * The filter keeps the players at exactly the positions without `id`, in
   * their order: entry `i` of the result is the player at the `i`-th such position.
   */
  lemma {:induction false} RemoveByIdInOrder(ps: seq<Player>, id: string)
    ensures var r := RemoveById(ps, id);
      var ix := KeptPositions(ps, id);
      |r| == |ix| && forall i :: 0 <= i < |r| ==> r[i] == ps[ix[i]]
  {
    if ps != [] {
      var front := ps[..|ps| - 1];
      var last := ps[|ps| - 1];
      assert front + [last] == ps;
      RemoveByIdInOrder(front, id);
      RemoveByIdSnoc(ps, id);
      var more := if last.id == id then [] else [last];
      var moreIx := if last.id == id then [] else [|front|];
      KeptPositionsSnoc(ps, id);
      PicksExtend(RemoveById(front, id), KeptPositions(front, id), front, last, more, moreIx);
    }
  }

  /** The kept positions of a list with one more player at the end end with that player's, if kept. */
  lemma KeptPositionsSnoc(ps: seq<Player>, id: string)
    requires ps != []
    ensures KeptPositions(ps, id) ==
      KeptPositions(ps[..|ps| - 1], id) + (if ps[|ps| - 1].id == id then [] else [|ps| - 1])
  {
  }

  /** Filtering a list with one more player at the end filters that player last. */
  lemma RemoveByIdSnoc(ps: seq<Player>, id: string)
    requires ps != []
    ensures var last := ps[|ps| - 1];
      RemoveById(ps, id) == RemoveById(ps[..|ps| - 1], id) + (if last.id == id then [] else [last])
  {
    var last := ps[|ps| - 1];
    assert ps == ps[..|ps| - 1] + [last];
    RemoveByIdAppend(ps[..|ps| - 1], [last], id);
    assert [last][1..] == [];
  }

  /** Picking from `front` stays picking from `front + [last]`, also when `last` itself is picked next. */
  lemma PicksExtend(r: seq<Player>, ix: seq<int>, front: seq<Player>, last: Player,
                    more: seq<Player>, moreIx: seq<int>)
    requires |r| == |ix| && forall i :: 0 <= i < |r| ==> 0 <= ix[i] < |front| && r[i] == front[ix[i]]
    requires (more == [] && moreIx == []) || (more == [last] && moreIx == [|front|])
    ensures var ps := front + [last];
      |r + more| == |ix + moreIx| &&
      forall i :: 0 <= i < |r + more| ==> 0 <= (ix + moreIx)[i] < |ps| && (r + more)[i] == ps[(ix + moreIx)[i]]
  {
    var ps := front + [last];
    forall i | 0 <= i < |r + more|
      ensures 0 <= (ix + moreIx)[i] < |ps| && (r + more)[i] == ps[(ix + moreIx)[i]]
    {
      if i < |r| {
        assert (r + more)[i] == r[i] && (ix + moreIx)[i] == ix[i];
      }
    }
  }

  /**
   * In a room whose ids are distinct, the `leaveRoom` filter removes just the
   * leaver's entry and keeps the others in their order.
   */
  lemma {:induction false} RemoveByIdIsSplice(ps: seq<Player>, k: int)
    requires UniqueIds(ps) && 0 <= k < |ps|
    ensures RemoveById(ps, ps[k].id) == ps[..k] + ps[k + 1..]
  {
    var id := ps[k].id;
    TailFacts(ps);
    if k == 0 {
      assert RemoveById(ps, id) == RemoveById(ps[1..], id);
      assert ps[..0] + ps[1..] == ps[1..];
    } else {
      var tail := ps[1..];
      assert tail[k - 1] == ps[k];
      RemoveByIdIsSplice(tail, k - 1);
      assert RemoveById(ps, id) == [ps[0]] + RemoveById(tail, id);
      SpliceAfterHead(ps, k);
    }
  }

  /** Removing entry `k` of the tail and putting the head back removes entry `k` of the whole. */
  lemma SpliceAfterHead<T>(ps: seq<T>, k: int)
    requires 1 <= k < |ps|
    ensures [ps[0]] + (ps[1..][..k - 1] + ps[1..][k..]) == ps[..k] + ps[k + 1..]
  {
    assert ps[1..][..k - 1] == ps[1..k];
    assert ps[1..][k..] == ps[k + 1..];
    assert ps[..k] == [ps[0]] + ps[1..k];
  }

  /** A list whose players all appear in `ps` has no id that `ps` lacks. */
  lemma NoIdInSublist(qs: seq<Player>, ps: seq<Player>, id: string)
    requires forall q :: q in qs ==> q in ps
    requires !HasId(ps, id)
    ensures !HasId(qs, id)
  {
    forall i | 0 <= i < |qs|
      ensures qs[i].id != id
    {
      assert qs[i] in ps;
    }
  }

  /** Putting a player with a fresh id in front of a list with distinct ids keeps them distinct. */
  lemma ConsKeepsUniqueIds(p: Player, ps: seq<Player>)
    requires UniqueIds(ps) && !HasId(ps, p.id)
    ensures UniqueIds([p] + ps)
  {
    var r := [p] + ps;
    forall i, j | 0 <= i < j < |r|
      ensures r[i].id != r[j].id
    {
      assert r[j] == ps[j - 1];
      if i > 0 {
        assert r[i] == ps[i - 1];
      }
    }
  }

  /** `players.findIndex(p => p.socketId === sid)`: the first match, or -1. */
  function IndexOfSocket(ps: seq<Player>, sid: string): (k: int)
    ensures -1 <= k < |ps|
    ensures k == -1 <==> !HasSocket(ps, sid)
    ensures 0 <= k ==> ps[k].socketId == sid && forall j :: 0 <= j < k ==> ps[j].socketId != sid
  {
    if ps == [] then -1
    else if ps[0].socketId == sid then 0
    else
      var k := IndexOfSocket(ps[1..], sid);
      if k == -1 then -1 else k + 1
  }

  /** What a disconnect does to one player list: nothing, or one player gone and the rest kept. */
  datatype Departure = Stayed | Departed(player: Player, remaining: seq<Player>)

  /** `rest` is `ps` without its first player on socket `sid`, and that player is `p`. */
  predicate SplicedFirstOn(ps: seq<Player>, sid: string, p: Player, rest: seq<Player>) {
    exists k :: 0 <= k < |ps|
      && ps[k] == p
      && p.socketId == sid
      && (forall j :: 0 <= j < k ==> ps[j].socketId != sid)
      && rest == ps[..k] + ps[k + 1..]
  }

  /** The player-list part of the disconnect callback: splice out the first player on socket `sid`. */
  function DisconnectPlayers(ps: seq<Player>, sid: string): (d: Departure)
    ensures d.Stayed? <==> !HasSocket(ps, sid)
    ensures d.Departed? ==> SplicedFirstOn(ps, sid, d.player, d.remaining)
  {
    var k := IndexOfSocket(ps, sid);
    if k == -1 then Stayed
    else Departed(ps[k], ps[..k] + ps[k + 1..])
  }

  /**
   * A departure removes exactly one player: the rest is one shorter, holds the
   * same players less the one gone, and keeps ids distinct.
   */
  lemma DepartureFacts(ps: seq<Player>, sid: string)
    ensures var d := DisconnectPlayers(ps, sid);
      d.Departed? ==>
        && |d.remaining| == |ps| - 1
        && multiset(ps) == multiset(d.remaining) + multiset{d.player}
        && (UniqueIds(ps) ==> UniqueIds(d.remaining))
  {
    var d := DisconnectPlayers(ps, sid);
    if d.Departed? {
      var k :| 0 <= k < |ps| && ps[k] == d.player && d.remaining == ps[..k] + ps[k + 1..];
      SpliceFacts(ps, k);
    }
  }

  /** Splicing out entry `k` drops one player, keeps the multiset of the rest, and keeps ids distinct. */
  lemma SpliceFacts(ps: seq<Player>, k: int)
    requires 0 <= k < |ps|
    ensures |ps[..k] + ps[k + 1..]| == |ps| - 1
    ensures multiset(ps) == multiset(ps[..k] + ps[k + 1..]) + multiset{ps[k]}
    ensures UniqueIds(ps) ==> UniqueIds(ps[..k] + ps[k + 1..])
  {
    assert ps == ps[..k] + [ps[k]] + ps[k + 1..];
    if UniqueIds(ps) {
      SpliceKeepsUniqueIds(ps, k);
    }
  }

  /** Splicing out entry `k` of a list with distinct ids keeps them distinct. */
  lemma SpliceKeepsUniqueIds(ps: seq<Player>, k: int)
    requires UniqueIds(ps) && 0 <= k < |ps|
    ensures UniqueIds(ps[..k] + ps[k + 1..])
  {
    var rest := ps[..k] + ps[k + 1..];
    forall i, j | 0 <= i < j < |rest|
      ensures rest[i].id != rest[j].id
    {
      var i' := if i < k then i else i + 1;
      var j' := if j < k then j else j + 1;
      assert rest[i] == ps[i'] && rest[j] == ps[j'];
    }
  }

  // ---------------------------------------------------------------------------
  // getRoomState
  // ---------------------------------------------------------------------------

  /** `getRoomState`: answer the caller with the room, or with an error when the code is unknown. */
  function GetRoomState(reg: Registry, code: string): (s: Step)
    ensures s.registry == reg
    ensures |s.emits| == 1 && ToSenderOnly(s.emits)
    ensures s.emits[0].event.Error? <==> code !in reg
    ensures code !in reg ==> s.emits[0].event.message == RoomNotFound
    ensures code in reg ==> s.emits[0].event == RoomState(reg[code])
  {
    if code in reg then Step(reg, [Emit(ToSender, RoomState(reg[code]))])
    else Step(reg, [Emit(ToSender, Error(RoomNotFound))])
  }

  // ---------------------------------------------------------------------------
  // createRoom
  // ---------------------------------------------------------------------------

  /** The record `createRoom` builds: the caller is host and sole player, and the game waits. */
  function NewRoom(code: string, gameType: string, userId: string, userName: string,
                   sid: string, now: Timestamp): Room
  {
    Room(code, gameType, Identity(userId, userName), [Player(userId, userName, sid)], Waiting, now)
  }

  /**
   * `createRoom`: generate a code from `draws` and store a fresh room under it.
   * There is no collision check: a room already stored under the code is replaced.
   */
  function CreateRoom(reg: Registry, draws: seq<real>, gameType: string, userId: string,
                      userName: string, sid: string, now: Timestamp): (s: Step)
    requires ValidDraws(draws)
    ensures var code := CodeFor(draws);
      && code in s.registry
      && s.registry[code].roomCode == code
      && s.registry[code].gameType == gameType
      && s.registry[code].status == Waiting
      && s.registry[code].host == Identity(userId, userName)
      && s.registry[code].players == [Player(userId, userName, sid)]
      && s.registry[code].createdAt == now
      && SameExcept(reg, s.registry, code)
      && s.emits == [Emit(ToSender, RoomCreated(s.registry[code]))]
    ensures s.registry.Keys == reg.Keys + {CodeFor(draws)}
  {
    var code := CodeFor(draws);
    var room := NewRoom(code, gameType, userId, userName, sid, now);
    Step(reg[code := room], [Emit(ToSender, RoomCreated(room))])
  }

  // ---------------------------------------------------------------------------
  // joinRoom
  // ---------------------------------------------------------------------------

  /**
   * `joinRoom`: refuse unknown and full rooms; on a rejoin answer with the room
   * as it is (the stored socket id is not refreshed); otherwise append the caller,
   * tell the others, and answer the caller with the new room.
   */
  function JoinRoom(reg: Registry, code: string, userId: string, userName: string,
                    sid: string): (s: Step)
    ensures code !in reg ==> s == Step(reg, [Emit(ToSender, Error(RoomNotFound))])
    ensures code in reg && |reg[code].players| >= Capacity ==>
      s == Step(reg, [Emit(ToSender, Error(RoomIsFull))])
    ensures code in reg && |reg[code].players| < Capacity && HasId(reg[code].players, userId) ==>
      s == Step(reg, [Emit(ToSender, RoomState(reg[code]))])
    ensures code in reg && |reg[code].players| < Capacity && !HasId(reg[code].players, userId) ==>
      var before := reg[code].players;
      var joiner := Player(userId, userName, sid);
      && code in s.registry
      && SameExcept(reg, s.registry, code)
      && s.registry[code].players == before + [joiner]
      && s.registry[code] == reg[code].(players := s.registry[code].players)
      && |s.registry[code].players| <= Capacity
      && (UniqueIds(before) ==> UniqueIds(s.registry[code].players))
      && s.emits == [Emit(ToOthers(code), PlayerJoined(joiner)), Emit(ToSender, RoomState(s.registry[code]))]
  {
    if code !in reg then Step(reg, [Emit(ToSender, Error(RoomNotFound))])
    else
      var room := reg[code];
      if |room.players| >= Capacity then Step(reg, [Emit(ToSender, Error(RoomIsFull))])
      else if HasId(room.players, userId) then Step(reg, [Emit(ToSender, RoomState(room))])
      else
        var joiner := Player(userId, userName, sid);
        var room' := room.(players := room.players + [joiner]);
        Step(reg[code := room'], [Emit(ToOthers(code), PlayerJoined(joiner)), Emit(ToSender, RoomState(room'))])
  }

  // ---------------------------------------------------------------------------
  // leaveRoom
  // ---------------------------------------------------------------------------

  /**
   * `leaveRoom`: drop every player with the caller's id, delete the room if that
   * empties it, and tell the others, whether or not anything was removed.
   */
  function LeaveRoom(reg: Registry, code: string, userId: string, userName: string): (s: Step)
    ensures SameExcept(reg, s.registry, code)
    ensures code !in reg ==> code !in s.registry
    ensures code in reg ==>
      (code !in s.registry <==> forall p :: p in reg[code].players ==> p.id == userId)
    ensures code in s.registry ==>
      && code in reg
      && s.registry[code] == reg[code].(players := RemoveById(reg[code].players, userId))
      && (forall p :: p in s.registry[code].players <==> p in reg[code].players && p.id != userId)
      && (!HasId(reg[code].players, userId) ==> s.registry[code] == reg[code])
    ensures s.emits == [Emit(ToOthers(code), PlayerLeft(userId, userName))]
  {
    var reg' :=
      if code in reg then
        var rest := RemoveById(reg[code].players, userId);
        if |rest| == 0 then reg - {code} else reg[code := reg[code].(players := rest)]
      else reg;
    Step(reg', [Emit(ToOthers(code), PlayerLeft(userId, userName))])
  }

  /**
   * In a room whose ids are distinct, a leave by the player at position `k`
   * that does not empty the room keeps the other players in join order.
   */
  lemma LeaveRoomKeepsJoinOrder(reg: Registry, code: string, userId: string, userName: string, k: int)
    requires code in reg && UniqueIds(reg[code].players) && |reg[code].players| > 1
    requires 0 <= k < |reg[code].players| && reg[code].players[k].id == userId
    ensures var ps := reg[code].players;
      var after := LeaveRoom(reg, code, userId, userName).registry;
      code in after && after[code].players == ps[..k] + ps[k + 1..]
  {
    var ps := reg[code].players;
    var j := if k == 0 then 1 else 0;
    assert ps[j].id != userId && ps[j] in ps;
    RemoveByIdIsSplice(ps, k);
  }

  // ---------------------------------------------------------------------------
  // startGame
  // ---------------------------------------------------------------------------

  /** `startGame`: mark the room active if it exists, and announce the start to the room in any case. */
  function StartGame(reg: Registry, code: string, now: Timestamp): (s: Step)
    ensures SameExcept(reg, s.registry, code)
    ensures code in s.registry <==> code in reg
    ensures code in reg ==> s.registry[code] == reg[code].(status := Active)
    ensures s.emits == [Emit(ToRoom(code), GameStarted(Active, now))]
  {
    if code in reg then
      Step(reg[code := reg[code].(status := Active)], [Emit(ToRoom(code), GameStarted(Active, now))])
    else
      Step(reg, [Emit(ToRoom(code), GameStarted(Active, now))])
  }

  // ---------------------------------------------------------------------------
  // disconnect
  // ---------------------------------------------------------------------------

  /** The `playerLeft` event announcing that `p` left room `code`. */
  function DepartureNotice(code: string, p: Player): Emit {
    Emit(ToRoom(code), PlayerLeft(p.id, p.name))
  }

  /** No code is listed twice. */
  predicate NoDuplicates(codes: seq<string>) {
    forall i, j :: 0 <= i < j < |codes| ==> codes[i] != codes[j]
  }

  /** `order` lists every key of `reg` exactly once: an iteration order of the map. */
  predicate Enumerates(order: seq<string>, reg: Registry) {
    && NoDuplicates(order)
    && (forall c :: c in order ==> c in reg)
    && (forall c :: c in reg ==> c in order)
  }

  /** What the disconnect of socket `sid` leaves of room `room` under key `code` of `reg'`. */
  ghost predicate DisconnectedRoom(room: Room, sid: string, reg': Registry, code: string) {
    match DisconnectPlayers(room.players, sid)
    case Stayed => code in reg' && reg'[code] == room
    case Departed(_, rest) =>
      if rest == [] then code !in reg'
      else code in reg' && reg'[code] == room.(players := rest)
  }

  /** One call of the `rooms.forEach` callback of the disconnect handler. */
  function DisconnectRoom(reg: Registry, code: string, sid: string): (s: Step)
    requires code in reg
    ensures SameExcept(reg, s.registry, code)
    ensures DisconnectedRoom(reg[code], sid, s.registry, code)
    ensures DisconnectPlayers(reg[code].players, sid).Stayed? ==> s.emits == []
    ensures DisconnectPlayers(reg[code].players, sid).Departed? ==>
      s.emits == [DepartureNotice(code, DisconnectPlayers(reg[code].players, sid).player)]
  {
    var room := reg[code];
    match DisconnectPlayers(room.players, sid)
    case Stayed => Step(reg, [])
    case Departed(p, rest) =>
      var reg' := if |rest| == 0 then reg - {code} else reg[code := room.(players := rest)];
      Step(reg', [DepartureNotice(code, p)])
  }

  /**
   * `reg'` is what the callbacks for `codes` leave of `reg`: each listed room as
   * its own callback leaves it, every other key untouched.
   */
  ghost predicate DisconnectedAll(reg: Registry, codes: seq<string>, sid: string, reg': Registry)
    requires forall c :: c in codes ==> c in reg
  {
    && (forall c :: c !in codes ==> (c in reg' <==> c in reg))
    && (forall c :: c !in codes && c in reg ==> reg'[c] == reg[c])
    && (forall c :: c in codes ==> DisconnectedRoom(reg[c], sid, reg', c))
  }

  /** The disconnect callback run over `codes` in turn, each room seeing the registry the earlier ones left. */
  function DisconnectRooms(reg: Registry, codes: seq<string>, sid: string): (s: Step)
    requires NoDuplicates(codes)
    requires forall c :: c in codes ==> c in reg
    ensures DisconnectedAll(reg, codes, sid, s.registry)
    ensures |s.emits| <= |codes|
    decreases |codes|
  {
    if codes == [] then Step(reg, [])
    else
      var first := DisconnectRoom(reg, codes[0], sid);
      assert forall c :: c in codes[1..] ==> c in codes && c != codes[0];
      var rest := DisconnectRooms(first.registry, codes[1..], sid);
      ComposeDisconnected(reg, first.registry, rest.registry, codes, sid);
      Step(rest.registry, first.emits + rest.emits)
  }

  /** The first callback followed by the callbacks for the other codes is the callbacks for all codes. */
  lemma ComposeDisconnected(reg: Registry, mid: Registry, fin: Registry, codes: seq<string>, sid: string)
    requires |codes| > 0 && NoDuplicates(codes)
    requires forall c :: c in codes ==> c in reg
    requires SameExcept(reg, mid, codes[0]) && DisconnectedRoom(reg[codes[0]], sid, mid, codes[0])
    requires forall c :: c in codes[1..] ==> c in mid
    requires DisconnectedAll(mid, codes[1..], sid, fin)
    ensures DisconnectedAll(reg, codes, sid, fin)
  {
    assert forall c :: c in codes[1..] ==> c in codes && c != codes[0];
    assert forall c :: c in codes ==> c == codes[0] || c in codes[1..];
    var c0 := codes[0];
    assert c0 !in codes[1..];
    SameRoomTransfer(reg[c0], sid, mid, fin, c0);
  }

  /** Whether a room was left as a disconnect leaves it depends only on its own key. */
  lemma SameRoomTransfer(room: Room, sid: string, r1: Registry, r2: Registry, code: string)
    requires DisconnectedRoom(room, sid, r1, code)
    requires code in r1 <==> code in r2
    requires code in r1 ==> r1[code] == r2[code]
    ensures DisconnectedRoom(room, sid, r2, code)
  {
  }

  /** The event the disconnect callback emits for room `code`: a notice if it lost a player, else nothing. */
  function Notice(room: Room, code: string, sid: string): seq<Emit> {
    match DisconnectPlayers(room.players, sid)
    case Stayed => []
    case Departed(p, _) => [DepartureNotice(code, p)]
  }

  /** A room yields at most one notice, addressed to that room. */
  lemma NoticeShape(room: Room, code: string, sid: string)
    ensures |Notice(room, code, sid)| <= 1
    ensures forall e :: e in Notice(room, code, sid) ==> e.target == ToRoom(code)
  {
  }

  /**
   * The notices for `codes`, each computed from the registry as it was before
   * the disconnect: a reference for the events the callback run emits.
   */
  function Notices(reg: Registry, codes: seq<string>, sid: string): seq<Emit>
    requires forall c :: c in codes ==> c in reg
  {
    if codes == [] then [] else Notice(reg[codes[0]], codes[0], sid) + Notices(reg, codes[1..], sid)
  }

  /** The notices depend only on the rooms listed. */
  lemma {:induction false} NoticesFrame(reg: Registry, reg': Registry, codes: seq<string>, sid: string)
    requires forall c :: c in codes ==> c in reg && c in reg' && reg'[c] == reg[c]
    ensures Notices(reg', codes, sid) == Notices(reg, codes, sid)
  {
    if codes != [] {
      NoticesFrame(reg, reg', codes[1..], sid);
    }
  }

  /** Each room whose departure is announced, and only those, has its notice among the notices. */
  lemma {:induction false} NoticesContent(reg: Registry, codes: seq<string>, sid: string)
    requires forall c :: c in codes ==> c in reg
    ensures forall e :: e in Notices(reg, codes, sid) <==> exists c :: c in codes && e in Notice(reg[c], c, sid)
  {
    if codes != [] {
      NoticesContent(reg, codes[1..], sid);
    }
  }

  /** Every event of `emits` goes to a whole room listed in `codes`. */
  predicate AddressedWithin(emits: seq<Emit>, codes: seq<string>) {
    forall i :: 0 <= i < |emits| ==> emits[i].target.ToRoom? && emits[i].target.code in codes
  }

  /** Every notice goes to one of the rooms listed. */
  lemma {:induction false} NoticesTargets(reg: Registry, codes: seq<string>, sid: string)
    requires forall c :: c in codes ==> c in reg
    ensures AddressedWithin(Notices(reg, codes, sid), codes)
  {
    if codes != [] {
      NoticesTargets(reg, codes[1..], sid);
      NoticeShape(reg[codes[0]], codes[0], sid);
      AddressedAfterOne(Notice(reg[codes[0]], codes[0], sid), Notices(reg, codes[1..], sid), codes);
    }
  }

  /** Events for the first listed room followed by events for the other listed rooms all go to listed rooms. */
  lemma AddressedAfterOne(head: seq<Emit>, tail: seq<Emit>, codes: seq<string>)
    requires |codes| > 0
    requires forall e :: e in head ==> e.target == ToRoom(codes[0])
    requires AddressedWithin(tail, codes[1..])
    ensures AddressedWithin(head + tail, codes)
  {
    var ns := head + tail;
    forall i | 0 <= i < |ns|
      ensures ns[i].target.ToRoom? && ns[i].target.code in codes
    {
      if i < |head| {
        assert ns[i] == head[i] && head[i] in head;
      } else {
        assert ns[i] == tail[i - |head|];
        assert tail[i - |head|].target.code in codes[1..];
      }
    }
  }

  /** No two events of `emits` share a target. */
  predicate DistinctTargets(emits: seq<Emit>) {
    forall i, j :: 0 <= i < j < |emits| ==> emits[i].target != emits[j].target
  }

  /** No two notices go to the same room: each room is announced at most once. */
  lemma {:induction false} NoticesDistinct(reg: Registry, codes: seq<string>, sid: string)
    requires NoDuplicates(codes)
    requires forall c :: c in codes ==> c in reg
    ensures DistinctTargets(Notices(reg, codes, sid))
  {
    if codes != [] {
      assert forall c :: c in codes[1..] ==> c != codes[0];
      NoticesDistinct(reg, codes[1..], sid);
      NoticesTargets(reg, codes[1..], sid);
      var head := Notice(reg[codes[0]], codes[0], sid);
      NoticeShape(reg[codes[0]], codes[0], sid);
      var tail := Notices(reg, codes[1..], sid);
      assert Notices(reg, codes, sid) == head + tail;
      DistinctAfterOne(head, tail, codes[0], codes[1..]);
    }
  }

  /** Putting at most one event for room `code` before events for other rooms keeps targets distinct. */
  lemma DistinctAfterOne(head: seq<Emit>, tail: seq<Emit>, code: string, others: seq<string>)
    requires |head| <= 1 && forall e :: e in head ==> e.target == ToRoom(code)
    requires code !in others && AddressedWithin(tail, others) && DistinctTargets(tail)
    ensures DistinctTargets(head + tail)
  {
    var ns := head + tail;
    forall i, j | 0 <= i < j < |ns|
      ensures ns[i].target != ns[j].target
    {
      if i < |head| {
        assert ns[i] == head[i] && ns[j] == tail[j - |head|];
      } else {
        assert ns[i] == tail[i - |head|] && ns[j] == tail[j - |head|];
      }
    }
  }

  /** Threading the registry through the callbacks emits exactly the reference notices. */
  lemma {:induction false} DisconnectRoomsEmits(reg: Registry, codes: seq<string>, sid: string)
    requires NoDuplicates(codes)
    requires forall c :: c in codes ==> c in reg
    ensures DisconnectRooms(reg, codes, sid).emits == Notices(reg, codes, sid)
  {
    if codes != [] {
      var first := DisconnectRoom(reg, codes[0], sid);
      assert forall c :: c in codes[1..] ==> c != codes[0];
      DisconnectRoomsEmits(first.registry, codes[1..], sid);
      NoticesFrame(reg, first.registry, codes[1..], sid);
    }
  }

  /**
   * `disconnect`: visit every room in the map's iteration order `order` and
   * remove from each the first player that joined over the closed socket.
   */
  function Disconnect(reg: Registry, order: seq<string>, sid: string): (s: Step)
    requires Enumerates(order, reg)
    ensures s.registry.Keys <= reg.Keys
    ensures forall c :: c in reg ==> DisconnectedRoom(reg[c], sid, s.registry, c)
    ensures s.emits == Notices(reg, order, sid)
    ensures forall e :: e in s.emits <==> exists c :: c in reg && e in Notice(reg[c], c, sid)
    ensures DistinctTargets(s.emits)
  {
    DisconnectRoomsEmits(reg, order, sid);
    NoticesContent(reg, order, sid);
    NoticesTargets(reg, order, sid);
    NoticesDistinct(reg, order, sid);
    DisconnectRooms(reg, order, sid)
  }
}

=== FILE: invariants.dfy ===
/**
 * What every handler keeps true of the registry, and how stored rooms may
 * change over time.
 */
module Invariants {
  import opened RoomTypes
  import opened RoomCode
  import opened Handlers

  /** A stored room: filed under its own code, which is well formed, with 1 to 10 players of distinct ids. */
  predicate RoomOk(code: string, room: Room) {
    && room.roomCode == code
    && IsRoomCode(code)
    && 0 < |room.players| <= Capacity
    && UniqueIds(room.players)
  }

  /** The registry invariant: every stored room is well formed, so no empty room stays in the map. */
  ghost predicate Inv(reg: Registry) {
    forall c :: c in reg ==> RoomOk(c, reg[c])
  }

  /**
   * `after` is a later state of the room `before`: the code, game, host and
   * creation time are fixed, and the status never goes back from active to waiting.
   */
  predicate Evolves(before: Room, after: Room) {
    && after.roomCode == before.roomCode
    && after.gameType == before.gameType
    && after.host == before.host
    && after.createdAt == before.createdAt
    && (before.status == Active ==> after.status == Active)
  }

  /** Every room stored both before and after is a later state of itself. */
  ghost predicate RoomsEvolve(reg: Registry, reg': Registry) {
    forall c :: c in reg && c in reg' ==> Evolves(reg[c], reg'[c])
  }

  lemma CreateRoomPreserves(reg: Registry, draws: seq<real>, gameType: string, userId: string,
                            userName: string, sid: string, now: Timestamp)
    requires Inv(reg) && ValidDraws(draws)
    ensures Inv(CreateRoom(reg, draws, gameType, userId, userName, sid, now).registry)
    ensures CodeFor(draws) !in reg ==>
      RoomsEvolve(reg, CreateRoom(reg, draws, gameType, userId, userName, sid, now).registry)
  {
  }

  lemma JoinRoomPreserves(reg: Registry, code: string, userId: string, userName: string, sid: string)
    requires Inv(reg)
    ensures Inv(JoinRoom(reg, code, userId, userName, sid).registry)
    ensures RoomsEvolve(reg, JoinRoom(reg, code, userId, userName, sid).registry)
  {
  }

  lemma LeaveRoomPreserves(reg: Registry, code: string, userId: string, userName: string)
    requires Inv(reg)
    ensures Inv(LeaveRoom(reg, code, userId, userName).registry)
    ensures RoomsEvolve(reg, LeaveRoom(reg, code, userId, userName).registry)
  {
    if code in reg {
      RemoveByIdKeepsUniqueIds(reg[code].players, userId);
    }
  }

  lemma StartGamePreserves(reg: Registry, code: string, now: Timestamp)
    requires Inv(reg)
    ensures Inv(StartGame(reg, code, now).registry)
    ensures RoomsEvolve(reg, StartGame(reg, code, now).registry)
  {
  }

  lemma DisconnectPreserves(reg: Registry, order: seq<string>, sid: string)
    requires Inv(reg) && Enumerates(order, reg)
    ensures Inv(Disconnect(reg, order, sid).registry)
    ensures RoomsEvolve(reg, Disconnect(reg, order, sid).registry)
    ensures var after := Disconnect(reg, order, sid).registry;
      forall c :: c in reg && c in after ==> after[c].status == reg[c].status
  {
    var reg' := Disconnect(reg, order, sid).registry;
    forall c | c in reg'
      ensures RoomOk(c, reg'[c]) && Evolves(reg[c], reg'[c]) && reg'[c].status == reg[c].status
    {
      assert DisconnectedRoom(reg[c], sid, reg', c);
      DepartureFacts(reg[c].players, sid);
    }
  }

  /** Starting an already started game changes nothing more. */
  lemma StartGameIdempotent(reg: Registry, code: string, t1: Timestamp, t2: Timestamp)
    ensures var once := StartGame(reg, code, t1).registry;
      StartGame(once, code, t2).registry == once
  {
  }

  /**
   * Joining twice with the same user id never adds the user twice: the second
   * join leaves the registry as the first left it and announces no one.
   */
  lemma JoinTwiceIsJoinOnce(reg: Registry, code: string, userId: string, name1: string, name2: string,
                            sid1: string, sid2: string)
    ensures var first := JoinRoom(reg, code, userId, name1, sid1);
      var second := JoinRoom(first.registry, code, userId, name2, sid2);
      && second.registry == first.registry
      && forall i :: 0 <= i < |second.emits| ==> !second.emits[i].event.PlayerJoined?
  {
    var first := JoinRoom(reg, code, userId, name1, sid1);
    if code in reg && |reg[code].players| < Capacity && !HasId(reg[code].players, userId) {
      var ps := first.registry[code].players;
      assert ps[|ps| - 1].id == userId;
    }
  }

  /** When the last player leaves, the room is gone: a later `getRoomState` reports it not found. */
  lemma LastLeaveDeletesRoom(reg: Registry, code: string, userId: string, userName: string)
    requires code in reg
    requires forall i :: 0 <= i < |reg[code].players| ==> reg[code].players[i].id == userId
    ensures var after := LeaveRoom(reg, code, userId, userName).registry;
      GetRoomState(after, code).emits == [Emit(ToSender, Error(RoomNotFound))]
  {
    forall p | p in reg[code].players
      ensures p.id == userId
    {
    }
  }

  /** When the last player's socket closes, the room is gone: a later `getRoomState` reports it not found. */
  lemma LastDisconnectDeletesRoom(reg: Registry, order: seq<string>, code: string, sid: string)
    requires Enumerates(order, reg)
    requires code in reg && |reg[code].players| == 1 && reg[code].players[0].socketId == sid
    ensures var after := Disconnect(reg, order, sid).registry;
      GetRoomState(after, code).emits == [Emit(ToSender, Error(RoomNotFound))]
  {
    assert DisconnectedRoom(reg[code], sid, Disconnect(reg, order, sid).registry, code);
  }

  /** A socket that never joined a room leaves the registry as it is and emits nothing on disconnect. */
  lemma DisconnectOfStrangerIsSilent(reg: Registry, order: seq<string>, sid: string)
    requires Enumerates(order, reg)
    requires forall c :: c in reg ==> !HasSocket(reg[c].players, sid)
    ensures Disconnect(reg, order, sid) == Step(reg, [])
  {
    var s := Disconnect(reg, order, sid);
    forall c | c in reg
      ensures c in s.registry && s.registry[c] == reg[c]
    {
      assert DisconnectedRoom(reg[c], sid, s.registry, c);
    }
    assert s.registry.Keys == reg.Keys;
    assert s.registry == reg;
    DisconnectRoomsEmits(reg, order, sid);
    NoNotices(reg, order, sid);
  }

  /** Rooms that all keep their players yield no notices. */
  lemma {:induction false} NoNotices(reg: Registry, codes: seq<string>, sid: string)
    requires forall c :: c in codes ==> c in reg && !HasSocket(reg[c].players, sid)
    ensures Notices(reg, codes, sid) == []
  {
    if codes != [] {
      NoNotices(reg, codes[1..], sid);
    }
  }

  /** The order in which the map is iterated does not change what a disconnect does. */
  lemma DisconnectOrderIrrelevant(reg: Registry, o1: seq<string>, o2: seq<string>, sid: string)
    requires Enumerates(o1, reg) && Enumerates(o2, reg)
    ensures Disconnect(reg, o1, sid).registry == Disconnect(reg, o2, sid).registry
    ensures forall e :: e in Disconnect(reg, o1, sid).emits <==> e in Disconnect(reg, o2, sid).emits
  {
    DisconnectRegistryOrderFree(reg, o1, o2, sid);
    DisconnectEventsOrderFree(reg, o1, o2, sid);
  }

  lemma DisconnectRegistryOrderFree(reg: Registry, o1: seq<string>, o2: seq<string>, sid: string)
    requires Enumerates(o1, reg) && Enumerates(o2, reg)
    ensures Disconnect(reg, o1, sid).registry == Disconnect(reg, o2, sid).registry
  {
    SameDisconnectedRegistry(reg, sid, Disconnect(reg, o1, sid).registry, Disconnect(reg, o2, sid).registry);
  }

  /** Two registries that each hold what a disconnect leaves of every room are the same. */
  lemma SameDisconnectedRegistry(reg: Registry, sid: string, r1: Registry, r2: Registry)
    requires r1.Keys <= reg.Keys && r2.Keys <= reg.Keys
    requires forall c :: c in reg ==> DisconnectedRoom(reg[c], sid, r1, c)
    requires forall c :: c in reg ==> DisconnectedRoom(reg[c], sid, r2, c)
    ensures r1 == r2
  {
    forall c | c in reg
      ensures (c in r1 <==> c in r2) && (c in r1 ==> r1[c] == r2[c])
    {
      SameDisconnectedRoom(reg[c], sid, r1, r2, c);
    }
    assert r1.Keys == r2.Keys;
  }

  lemma DisconnectEventsOrderFree(reg: Registry, o1: seq<string>, o2: seq<string>, sid: string)
    requires Enumerates(o1, reg) && Enumerates(o2, reg)
    ensures forall e :: e in Disconnect(reg, o1, sid).emits <==> e in Disconnect(reg, o2, sid).emits
  {
  }

  /** What a disconnect leaves of one room is determined by that room alone. */
  lemma SameDisconnectedRoom(room: Room, sid: string, r1: Registry, r2: Registry, code: string)
    requires DisconnectedRoom(room, sid, r1, code) && DisconnectedRoom(room, sid, r2, code)
    ensures code in r1 <==> code in r2
    ensures code in r1 ==> r1[code] == r2[code]
  {
  }
}

=== FILE: room_code.dfy ===
/**
 * `generateRoomCode`: six characters drawn from `A-Z0-9`, each chosen by
 * `Math.floor(Math.random() * 36)`. The random draws are an input here: a
 * sequence of reals in [0, 1), one per character.
 */
module RoomCode {

  const Alphabet: string := "ABCDEFGHIJKLMNOPQRSTUVWXYZ0123456789"

  /** The length of every room code. */
  const CodeLength: nat := 6

  /** A character a room code may contain: an upper-case ASCII letter or a decimal digit. */
  predicate IsCodeChar(c: char) {
    ('A' <= c <= 'Z') || ('0' <= c <= '9')
  }

  /** `s` has the shape of a generated room code. */
  predicate IsRoomCode(s: string) {
    |s| == CodeLength && forall i :: 0 <= i < |s| ==> IsCodeChar(s[i])
  }

  /** One value `Math.random()` can return. */
  predicate IsDraw(x: real) {
    0.0 <= x < 1.0
  }

  /** Exactly the draws one call of `generateRoomCode` consumes. */
  predicate ValidDraws(draws: seq<real>) {
    |draws| == CodeLength && forall i :: 0 <= i < |draws| ==> IsDraw(draws[i])
  }

  /** `Math.floor(x * chars.length)`: the alphabet position a draw selects. */
  function CharIndex(x: real): (k: int)
    requires IsDraw(x)
    ensures 0 <= k < |Alphabet|
    ensures k as real <= x * 36.0 < k as real + 1.0
  {
    (x * 36.0).Floor
  }

  /** The letters come first, in order, then the digits, in order. */
  lemma {:induction false} AlphabetLayout(k: int)
    requires 0 <= k < |Alphabet|
    ensures k < 26 ==> Alphabet[k] as int == 'A' as int + k
    ensures 26 <= k ==> Alphabet[k] as int == '0' as int + (k - 26)
  {
    var letters := seq(26, i requires 0 <= i < 26 => ('A' as int + i) as char);
    var digits := seq(10, i requires 0 <= i < 10 => ('0' as int + i) as char);
    assert Alphabet == letters + digits;
  }

  /** The alphabet holds exactly the characters a room code may contain. */
  lemma AlphabetIsCodeChars(c: char)
    ensures c in Alphabet <==> IsCodeChar(c)
  {
    if c in Alphabet {
      var k :| 0 <= k < |Alphabet| && Alphabet[k] == c;
      AlphabetLayout(k);
    }
    if 'A' <= c <= 'Z' {
      AlphabetLayout(c as int - 'A' as int);
    } else if '0' <= c <= '9' {
      AlphabetLayout(c as int - '0' as int + 26);
    }
  }

  /** The code a sequence of draws yields: character `i` is the one draw `i` selects. */
  function CodeFor(draws: seq<real>): (code: string)
    requires ValidDraws(draws)
    ensures IsRoomCode(code)
  {
    var code := seq(CodeLength, i requires 0 <= i < CodeLength => Alphabet[CharIndex(draws[i])]);
    forall i | 0 <= i < CodeLength
      ensures IsCodeChar(code[i])
    {
      AlphabetIsCodeChars(code[i]);
    }
    code
  }

  /** The loop of `generateRoomCode`: append one character per draw. */
  method GenerateRoomCode(draws: seq<real>) returns (code: string)
    requires ValidDraws(draws)
    ensures IsRoomCode(code)
    ensures forall i :: 0 <= i < |code| ==> code[i] == Alphabet[CharIndex(draws[i])]
    ensures code == CodeFor(draws)
  {
    code := "";
    var i := 0;
    while i < CodeLength
      invariant 0 <= i <= CodeLength
      invariant |code| == i
      invariant forall j :: 0 <= j < i ==> code[j] == Alphabet[CharIndex(draws[j])]
    {
      code := code + [Alphabet[CharIndex(draws[i])]];
      i := i + 1;
    }
  }

  /** Every well-formed room code is produced by some draws: the full 36^6 space is reachable. */
  lemma {:induction false} EveryCodeReachable(code: string)
    requires IsRoomCode(code)
    ensures exists draws :: ValidDraws(draws) && CodeFor(draws) == code
  {
    var ks := seq(CodeLength, i requires 0 <= i < CodeLength => IndexOf(code[i]));
    var draws := seq(CodeLength, i requires 0 <= i < CodeLength => ks[i] as real / 36.0);
    forall i | 0 <= i < CodeLength
      ensures IsDraw(draws[i]) && CharIndex(draws[i]) == ks[i]
    {
    }
    assert CodeFor(draws) == code;
  }

  /** The position of a code character in the alphabet. */
  function IndexOf(c: char): (k: int)
    requires IsCodeChar(c)
    ensures 0 <= k < |Alphabet| && Alphabet[k] == c
  {
    if 'A' <= c <= 'Z' then
      AlphabetLayout(c as int - 'A' as int);
      c as int - 'A' as int
    else
      AlphabetLayout(c as int - '0' as int + 26);
      c as int - '0' as int + 26
  }
}

=== FILE: room_types.dfy ===
/**
 * The data of the room registry kept in memory by the game server: rooms keyed
 * by their six-character code, the players in each room, and the events the
 * socket handlers emit.
 */
module RoomTypes {

  /** Opaque stand-in for the `Date` values the server stamps on rooms and game starts. */
  type Timestamp = int

  /** A room never holds more players than this: `joinRoom` refuses at this size. */
  const Capacity: nat := 10

  const RoomNotFound: string := "Room not found"
  const RoomIsFull: string := "Room is full"

  /** Only `waiting` and `active` are ever stored; `completed` is never set by the server. */
  datatype Status = Waiting | Active

  /** A user identity as the client supplies it: the room's host is one. */
  datatype Identity = Identity(id: string, name: string)

  /** A room member: the user, and the socket connection that joined on its behalf. */
  datatype Player = Player(id: string, name: string, socketId: string)

  datatype Room = Room(
    roomCode: string,
    gameType: string,
    host: Identity,
    players: seq<Player>,
    status: Status,
    createdAt: Timestamp)

  /** The server's `rooms` map. */
  type Registry = map<string, Room>

  /** Who receives an event: the calling socket only, the room without the caller, or the whole room. */
  datatype Target = ToSender | ToOthers(code: string) | ToRoom(code: string)

  /** The payloads of the events the server emits, one constructor per event name. */
  datatype Event =
    | RoomCreated(room: Room)
    | RoomState(room: Room)
    | PlayerJoined(player: Player)
    | PlayerLeft(id: string, name: string)
    | GameStarted(status: Status, startedAt: Timestamp)
    | Error(message: string)

  datatype Emit = Emit(target: Target, event: Event)

  /** What one handler leaves behind: the new registry and the events it emitted, in order. */
  datatype Step = Step(registry: Registry, emits: seq<Emit>)

  /** Some player of `ps` has user id `id` (the test of `players.find(p => p.id === userId)`). */
  predicate HasId(ps: seq<Player>, id: string) {
    exists i :: 0 <= i < |ps| && ps[i].id == id
  }

  /** Some player of `ps` joined over socket `sid`. */
  predicate HasSocket(ps: seq<Player>, sid: string) {
    exists i :: 0 <= i < |ps| && ps[i].socketId == sid
  }

  /** No two players of `ps` share a user id. */
  predicate UniqueIds(ps: seq<Player>) {
    forall i, j :: 0 <= i < j < |ps| ==> ps[i].id != ps[j].id
  }

  /** The events of `emits` go to the caller alone. */
  predicate ToSenderOnly(emits: seq<Emit>) {
    forall i :: 0 <= i < |emits| ==> emits[i].target == ToSender
  }

  /** `r` and `r'` agree on every key except `code`. */
  ghost predicate SameExcept(r: Registry, r': Registry, code: string) {
    && (forall c :: c != code ==> (c in r <==> c in r'))
    && (forall c :: c != code && c in r ==> r'[c] == r[c])
  }
}

=== FILE: server.dfy ===
/**
 * The connection handler of the game server as one dispatcher: each request
 * names the socket it arrived on, the time, and the command. Commands are
 * handled one after another, so a run of requests is a fold of the handlers.
 */
module Server {
  import opened RoomTypes
  import opened RoomCode
  import opened Handlers
  import opened Invariants

  /** The socket events the server listens for; `Disconnected` is the socket closing. */
  datatype Command =
    | GetState(code: string)
    | Create(draws: seq<real>, gameType: string, userId: string, userName: string)
    | Join(code: string, userId: string, userName: string)
    | Leave(code: string, userId: string, userName: string)
    | Start(code: string)
    | Disconnected

  datatype Request = Request(sid: string, now: Timestamp, command: Command)

  /** The registry the server starts with: `new Map()`. */
  const Initial: Registry := map[]

  /** The random draws of a `createRoom` come from `Math.random`, so they are in range. */
  predicate WellFormed(req: Request) {
    req.command.Create? ==> ValidDraws(req.command.draws)
  }

  /** Some iteration order of the map: every key, once. */
  ghost function MapOrder(reg: Registry): (order: seq<string>)
    ensures Enumerates(order, reg)
    decreases |reg|
  {
    if |reg| == 0 then []
    else
      var k :| k in reg;
      var rest := reg - {k};
      assert rest.Keys == reg.Keys - {k};
      [k] + MapOrder(rest)
  }

  /** Dispatch one request to its handler. */
  ghost function Handle(reg: Registry, req: Request): Step
    requires WellFormed(req)
  {
    match req.command
    case GetState(code) => GetRoomState(reg, code)
    case Create(draws, gameType, userId, userName) =>
      CreateRoom(reg, draws, gameType, userId, userName, req.sid, req.now)
    case Join(code, userId, userName) => JoinRoom(reg, code, userId, userName, req.sid)
    case Leave(code, userId, userName) => LeaveRoom(reg, code, userId, userName)
    case Start(code) => StartGame(reg, code, req.now)
    case Disconnected => Disconnect(reg, MapOrder(reg), req.sid)
  }

  /** The registry after handling `reqs` in order. */
  ghost function Run(reg: Registry, reqs: seq<Request>): Registry
    requires forall i :: 0 <= i < |reqs| ==> WellFormed(reqs[i])
    decreases reqs
  {
    if reqs == [] then reg else Run(Handle(reg, reqs[0]).registry, reqs[1..])
  }

  /**
   * Every request keeps the registry invariant, and every request except a
   * create whose code is already taken keeps each surviving room's identity
   * and never moves its status back to waiting.
   */
  lemma HandlePreserves(reg: Registry, req: Request)
    requires Inv(reg) && WellFormed(req)
    ensures Inv(Handle(reg, req).registry)
    ensures (req.command.Create? ==> CodeFor(req.command.draws) !in reg) ==>
      RoomsEvolve(reg, Handle(reg, req).registry)
  {
    match req.command
    case GetState(code) =>
    case Create(draws, gameType, userId, userName) =>
      CreateRoomPreserves(reg, draws, gameType, userId, userName, req.sid, req.now);
    case Join(code, userId, userName) => JoinRoomPreserves(reg, code, userId, userName, req.sid);
    case Leave(code, userId, userName) => LeaveRoomPreserves(reg, code, userId, userName);
    case Start(code) => StartGamePreserves(reg, code, req.now);
    case Disconnected => DisconnectPreserves(reg, MapOrder(reg), req.sid);
  }

  /** The invariant holds after any run of requests from a registry that satisfies it. */
  lemma {:induction false} RunPreserves(reg: Registry, reqs: seq<Request>)
    requires Inv(reg)
    requires forall i :: 0 <= i < |reqs| ==> WellFormed(reqs[i])
    ensures Inv(Run(reg, reqs))
    decreases reqs
  {
    if reqs != [] {
      HandlePreserves(reg, reqs[0]);
      RunPreserves(Handle(reg, reqs[0]).registry, reqs[1..]);
    }
  }

  /**
   * From the empty map the server starts with, every reachable registry has
   * distinct player ids per room, at most ten players per room, and no empty room.
   */
  lemma ReachableRegistriesAreSound(start: Registry, reqs: seq<Request>)
    requires start == Initial
    requires forall i :: 0 <= i < |reqs| ==> WellFormed(reqs[i])
    ensures Inv(Run(start, reqs))
  {
    RunPreserves(start, reqs);
  }

  /**
   * A lobby session: Ann creates a trivia room, Bob joins, the game starts,
   * Ann's socket closes, and Bob leaves, which deletes the room.
   */
  lemma LobbySession(draws: seq<real>, t0: Timestamp, t1: Timestamp)
    requires ValidDraws(draws)
    ensures var code := CodeFor(draws);
      var ann := Player("U1", "Ann", "s1");
      var bob := Player("U2", "Bob", "s2");
      var created := CreateRoom(map[], draws, "trivia", "U1", "Ann", "s1", t0);
      var joined := JoinRoom(created.registry, code, "U2", "Bob", "s2");
      var started := StartGame(joined.registry, code, t1);
      var dropped := Disconnect(started.registry, [code], "s1");
      var left := LeaveRoom(dropped.registry, code, "U2", "Bob");
      && created.emits == [Emit(ToSender, RoomCreated(
           Room(code, "trivia", Identity("U1", "Ann"), [ann], Waiting, t0)))]
      && joined.emits[0] == Emit(ToOthers(code), PlayerJoined(bob))
      && joined.emits[1].target == ToSender
      && joined.emits[1].event.room.players == [ann, bob]
      && started.emits == [Emit(ToRoom(code), GameStarted(Active, t1))]
      && dropped.emits == [Emit(ToRoom(code), PlayerLeft("U1", "Ann"))]
      && code in dropped.registry
      && dropped.registry[code].players == [bob]
      && dropped.registry[code].status == Active
      && left.registry == map[]
      && left.emits == [Emit(ToOthers(code), PlayerLeft("U2", "Bob"))]
  {
    var code := CodeFor(draws);
    var ann := Player("U1", "Ann", "s1");
    var bob := Player("U2", "Bob", "s2");
    var room := Room(code, "trivia", Identity("U1", "Ann"), [ann], Waiting, t0);
    var created := CreateRoom(map[], draws, "trivia", "U1", "Ann", "s1", t0);
    assert created.registry == map[code := room];
    SessionJoin(code, room, ann, bob);
    var room2 := room.(players := [ann, bob]);
    SessionStart(code, room2, t1);
    var room3 := room2.(status := Active);
    SessionDrop(code, room3, ann, bob);
    SessionLeave(code, room3.(players := [bob]), bob);
  }

  lemma SessionJoin(code: string, room: Room, ann: Player, bob: Player)
    requires room.players == [ann] && ann.id != bob.id
    ensures JoinRoom(map[code := room], code, bob.id, bob.name, bob.socketId) ==
      Step(map[code := room.(players := [ann, bob])],
           [Emit(ToOthers(code), PlayerJoined(bob)), Emit(ToSender, RoomState(room.(players := [ann, bob])))])
  {
    assert !HasId([ann], bob.id);
    assert [ann] + [Player(bob.id, bob.name, bob.socketId)] == [ann, bob];
  }

  lemma SessionStart(code: string, room: Room, t: Timestamp)
    ensures StartGame(map[code := room], code, t) ==
      Step(map[code := room.(status := Active)], [Emit(ToRoom(code), GameStarted(Active, t))])
  {
  }

  lemma SessionDrop(code: string, room: Room, ann: Player, bob: Player)
    requires room.players == [ann, bob] && ann.socketId != bob.socketId
    ensures Disconnect(map[code := room], [code], ann.socketId) ==
      Step(map[code := room.(players := [bob])], [Emit(ToRoom(code), PlayerLeft(ann.id, ann.name))])
  {
    var reg := map[code := room];
    assert IndexOfSocket([ann, bob], ann.socketId) == 0;
    assert [ann, bob][..0] + [ann, bob][1..] == [bob];
    assert DisconnectPlayers([ann, bob], ann.socketId) == Departed(ann, [bob]);
    var first := DisconnectRoom(reg, code, ann.socketId);
    assert first == Step(map[code := room.(players := [bob])], [DepartureNotice(code, ann)]);
    assert [code][1..] == [];
    assert DisconnectRooms(first.registry, [], ann.socketId) == Step(first.registry, []);
    assert DisconnectRooms(reg, [code], ann.socketId) == Step(first.registry, first.emits + []);
  }

  lemma SessionLeave(code: string, room: Room, bob: Player)
    requires room.players == [bob]
    ensures LeaveRoom(map[code := room], code, bob.id, bob.name).registry == map[]
  {
    assert RemoveById([bob], bob.id) == [];
  }
}
